=== FILE: README.md ===
# Task-list service: a Dafny model of its decision logic

The service is a small REST API for a to-do list. Users sign up and log in. Tasks have a
title, an optional description, one of three states and two timestamps. They are created,
read, listed page by page (optionally filtered by state), partially updated and deleted.

This project models the request handlers, the task state validator and the pager as pure
functions over two tables. Each table is a finite map from primary key to row. The ORM
session, the SQL it issues and the web framework's request validation are all replaced by
operations on these maps.

Modules:

- `Http` (`http.dfy`): results, the three kinds of error (a deliberate `HTTPException`, a
  422 from the request schema, an unhandled exception), replies that pair the table after
  a request with the response, and JSON bodies.
- `Settings` (`settings.dfy`): the page size, 10.
- `Keys` (`keys.dfy`): an assumption and a fact about integer primary keys. The model
  assumes rows come back in ascending key order. A new row gets one more than the largest
  key, or 1 in an empty table.
- `TaskModel` (`task_model.dfy`): the `PossiveisEstados` enum, `ALLOWED_STATES`,
  `ALLOWED_STATE_FILTER`, `is_state_valid`, the `Task` row and the `TaskCreate` /
  `TaskUpdate` schemas.
- `UserModel` (`user_model.dfy`): the `User` row and the `UserCreate` schema.
- `Utils` (`utils.dfy`): `get_paginated_tasks` and `get_task_or_404`.
- `Handlers` (`handlers.dfy`): `login_user`, `create_users`, `read_tasks`, `list_tasks`,
  `create_tasks`, `update_tasks`, `delete_tasks`.
- `Routes` (`routes.dfy`): the whole application, with one input saying whether a request
  carries a valid token.

Modelling decisions:

- **Listing order.** The listing query has no ORDER BY. The model assumes rows come back in
  ascending id order (`Keys.Ascending`, `Handlers.Rows`). Every ordering property rests on
  this assumption.
- **New ids.** A new row is stored under one more than the largest id present, or 1 in an
  empty table. This is how an integer primary key without AUTOINCREMENT behaves in SQLite,
  the database the service is configured for.
- **State filter.** `list_tasks` compares the `estado` column with the filter key, for
  example `"pendente"`. An enum column stores the enum member's name, not its value.
  The three filter keys are exactly the member names of `PossiveisEstados`. So the model
  matches a row when its state's member name equals the key (`State.Name`).
- **Partial updates.** `TaskUpdate.model_dump(exclude_unset=True)` keeps an explicit null
  apart from a field that was left out, so each patch field has three cases: `Unset`,
  `SetNull` or `SetTo`. A null `titulo` or `estado` breaks its column's NOT NULL
  constraint. The model treats that as a failed commit: an unhandled exception (500) that
  leaves the table unchanged.
- **Stored states.** The `estado` column is an enum column. It stores the member's name for
  an enum value or a member name, and keeps any other string unchanged, because it does
  not validate strings. The model records what the column holds (`TaskModel.Column`): a
  member, or unmatched text. A row holding unmatched text can be written but not loaded.
  Reading, updating or deleting it, or listing a page that holds it, is an unhandled
  exception (500). Only one request writes such a row: an update whose `estado` is the
  empty string. That string is falsy, so it skips the state check (see "## Findings").
- **Missing `estado` in `is_state_valid`.** The code raises `NotImplemented(...)`.
  Calling that object is itself an error, so either way an exception escapes and the
  server answers 500. The model returns `Unhandled(StateNotImplemented)`.
- **Passwords** are stored and compared as plain text. No hashing exists in the code.
- **Timestamps** are opaque integers the caller supplies as `now`.
- **Authentication** is one boolean input per request.

Where the tests disagree with the code, the model follows the code:

- The account route is `/api/auth/user` (main.py:33), not `/api/user/create` (test_main.py:108).
- The login error is `"Credentials invalidos."` (main.py:27), not `"Credenciais invalidos."`.
- The state-check message is `"Somente 3 valores: ..."` (models/task.py:26, 37). The tests
  expect `"Somente 3 valores possiveis: ..."`.
- The state strings are capitalised: `"Pendente"`, `"Concluído"`, `"Em andamento"`
  (models/task.py:17). The tests send lower-case ones.
- The page size is 10 (settings.py:4). The tests expect 5 items on page 1.
- Login reads a JSON `UserCreate` body (main.py:19). The tests send the credentials as form
  data (test_main.py:150, 159, 166).
- The tests filter with `estado=concluida` (test_main.py:524). That is not one of the filter
  keys (models/task.py:18), so the code answers 400.
- The update route's response model is `TaskUpdate` (main.py:67), which has no
  `data_atualizacao`. The tests read that field from the update response (test_main.py:388).

## Model

| member | source | states |
|---|---|---|
| Keys.NextKey | models/task.py:48 | a new row's id is at least 1, not already used and above every existing id; it is 1 in an empty table and otherwise one more than the largest id |
| Keys.Ascending | main.py:59-61 | the assumed row order of the unordered SELECT: every key exactly once, strictly increasing |
| TaskModel.AllowedStatesAreEnumValues | models/task.py:17-44 | `ALLOWED_STATES` holds three distinct strings, and they are exactly the `PossiveisEstados` values, so any state the validator accepts can be stored in a task |
| TaskModel.FilterKeysAreEnumNames | models/task.py:17-44 | `ALLOWED_STATE_FILTER` holds three distinct keys; they are exactly the enum member names, and none of them is a state string |
| TaskModel.ParseState | models/task.py:41-51 | coercing a string into the `estado` enum succeeds exactly for the three allowed strings and yields the member with that value |
| TaskModel.ParseStateRoundTrip | models/task.py:41-44 | every enum member coerces back from its own value |
| TaskModel.BindState | models/task.py:41-51 | the enum column stores a member exactly for an enum value or a member name (that member), and keeps any other string as unmatched text |
| TaskModel.IsStateValid | models/task.py:29-38 | a missing or empty `estado` always raises; the answer is true exactly when `estado` is an enum value; with `raise_error` a disallowed state is the 400 whose detail maps `estado` to the allowed-values message, never false; without it a non-empty state never raises |
| TaskModel.ParseTaskCreate | models/task.py:71-74 | a create body is accepted exactly when `titulo` and `estado` are strings and `descricao` is absent, null or a string; the parsed fields are the strings sent, and a missing or null `descricao` becomes None; anything else is a 422 |
| TaskModel.ParseTaskUpdate | models/task.py:65-68 | an update body is refused only when a field holds a non-string; each field becomes Unset exactly when it is left out, SetNull exactly when it is null, and otherwise the string sent; the empty body is the patch that sets nothing |
| TaskModel.ParseTaskCreateRoundTrip | models/task.py:71-74 | every create request a client can send survives the schema unchanged |
| TaskModel.ParseTaskUpdateRoundTrip | models/task.py:65-68 | every update request survives the schema unchanged, and an explicit null stays distinct from a field left out |
| UserModel.ParseUserCreate | models/user.py:33-35 | a sign-up or login body is accepted exactly when both fields are strings |
| UserModel.ParseUserCreateRoundTrip | models/user.py:33-35 | every sign-up or login request survives the schema unchanged |
| Utils.EffectivePage | utils.py:19-20 | the page served is at least 1 and is the requested page whenever that is an integer of at least 1 |
| Utils.OutOfRangePageIsFirst | utils.py:19-20 | a page below 1, or a page that is not an integer, serves the same items as page 1 |
| Utils.Paginate | utils.py:18-23 | a page holds at most 10 items, its offset is never negative, it is empty when the offset is at or past the end, and otherwise it is the run of items starting at the offset |
| Utils.OffsetsAdjacent | utils.py:22 | page 1 starts at item 0, each page starts one page size after the previous one, and page p starts at (p-1)·10 |
| Utils.PagesCoverPrefix | utils.py:22-23 | pages 1..k together are exactly the first k·10 items (or all of them), in order, so pages neither overlap nor skip anything |
| Utils.ItemOnItsPage | utils.py:22-23 | item i appears on page i/10+1 at position i mod 10, and no other page's range contains it |
| Utils.GetTaskOr404 | utils.py:26-31 | the stored row when the id is present and the row can be loaded; 404 "Tarefa não encontrada." when the id is absent; an unhandled error when the stored `estado` names no enum member; it returns no table, so it cannot change one |
| Handlers.LoginUser | main.py:19-30 | login succeeds exactly when some stored user matches both username and password, and then hands the request's credentials to the token encoder; every failure is the same 400 |
| Handlers.LoginFailuresIndistinguishable | main.py:26-27 | a wrong password for an existing user and an unknown username get the identical response |
| Handlers.CreateUser | main.py:33-45 | a taken username is a 400 "Usuário já existe." with the table unchanged; otherwise exactly one row is added, no existing row changes, and usernames stay unique |
| Handlers.LoginAfterCreateUser | main.py:19-45 | an account just created can log in with the same credentials |
| Handlers.CreateUserTwice | main.py:37-45 | creating the same username twice fails the second time, leaving exactly one row with that username |
| Handlers.ReadTask | main.py:48-50 | without authentication the answer is 401; with it, the stored row when the id exists and the row can be loaded, 404 when the id is absent, and never 401 |
| Handlers.Rows | main.py:59-61 | the unfiltered selection holds every stored task once, in ascending id order |
| Handlers.WithState | main.py:59 | the filtered selection keeps exactly the rows whose state matches the key, and keeps their order |
| Handlers.Selection | main.py:55-61 | a truthy `estado` selects exactly the stored rows whose column text equals it, otherwise every stored row is selected; in a well-formed table the selection comes in ascending id order |
| Handlers.ListTasks | main.py:53-64 | a non-empty filter outside `ALLOWED_STATE_FILTER` is a 400 with no tasks; otherwise the answer is exactly the requested page of the selection when every row on it can be loaded, and an unhandled error when one cannot, which never happens in a well-formed table; a page holds at most 10 stored, loadable tasks, in ascending id order in a well-formed table, all in the filtered state when a filter is given |
| Handlers.LoadRows | main.py:63 | loading selected rows succeeds exactly when every one of them holds an enum member, and then returns them unchanged |
| Handlers.ListedPage | main.py:53-64 | in a well-formed table an accepted filter always lists exactly its page of the selection |
| Handlers.FilterSelectsOneState | main.py:55-59 | in a well-formed table an accepted filter key names exactly one state, and the selection is exactly the stored tasks in that state |
| Handlers.ListedPagesCoverSelection | main.py:53-64 | listing pages 1..k one after the other yields exactly the first k·10 selected tasks |
| Handlers.ListPastEndIsEmpty | main.py:62-63 | a page starting at or past the end of the selection is an empty list, not an error |
| Handlers.ListingIsComplete | main.py:59-63 | in a well-formed table every stored task the filter admits is served by some page |
| Handlers.CreateTask | main.py:82-93 | a state outside the enum is a 400 carrying the whole validation message, and nothing is stored; otherwise exactly one row is added under a fresh id above all others, with the request's fields and both timestamps set to the creation instant |
| Handlers.ReadAfterCreate | main.py:82-93 | a created task reads back exactly as it was returned |
| Handlers.CheckPatchState | main.py:69-70 | the update's state check fails exactly for a non-empty `estado` outside the enum, with the validator's 400 |
| Handlers.CheckSentState | main.py:69-70 | corrected check: it fails exactly for a sent `estado` outside the enum, with the validator's 500 for the empty string and its 400 otherwise |
| Handlers.ApplyPatch | main.py:73-77 | merging a patch fails exactly when it sets a null title or a null state, and that failure is an unhandled error; otherwise exactly the fields the patch sets change, a state string is stored as the enum column binds it, and `data_atualizacao` is untouched |
| Handlers.UpdateTaskAsWritten | main.py:67-79 | as the code runs it: a non-empty disallowed state is a 400 before the id is looked up, and an unknown id is a 404, an existing row that cannot be loaded is a 500, and a null title or state on a loadable row is a 500; the update succeeds exactly when the state check passes, the row exists and loads, no title or state is null, and the state is not the empty string; an empty state is written anyway and answered with a 500; any other failure leaves the table unchanged; a write changes only that row, merging the patch and keeping `data_atualizacao` |
| Handlers.UpdatedAtStaleAsWritten | main.py:73-79 | the input showing that, as written, a task retitled later still reports its creation instant as its last update |
| Handlers.EmptyStateCorruptsRowAsWritten | main.py:67-79 | the input showing that, as written, an update sending an empty state answers 500 yet leaves the row holding it, after which reading, deleting or listing it also answers 500 |
| Handlers.UpdateRefusesEmptyState | main.py:69-70 | corrected: an update sending an empty state is refused with the validator's 500 and writes nothing, whatever the table and the id |
| Handlers.UpdateTask | main.py:67-79 | corrected: every state sent is checked, so a disallowed state is a 400 and an empty one a 500, both before the id is looked up; an unknown id is a 404, an existing row that cannot be loaded is a 500, and a null title or state on a loadable row is a 500; the update succeeds exactly when the check passes, the row exists and loads, and no title or state is null; every failure leaves the table unchanged; a success changes only that row, merges exactly the fields the patch sets, keeps the id and `data_criacao`, records the update instant, and keeps every row loadable |
| Handlers.UpdateRecordsInstant | main.py:73-79 | after a successful update the row reads back as returned, stamped with the update instant |
| Handlers.UpdateChecksStateBeforeId | main.py:69-72 | a bad state on an id that does not exist is reported as the 400 state error, not as 404 |
| Handlers.EmptyPatchKeepsRow | main.py:73-74 | a patch that sets no field changes nothing but the update timestamp of a loadable row |
| Handlers.UpdateIdempotent | main.py:73-77 | applying the same patch a second time changes nothing further |
| Handlers.DeleteTask | main.py:96-102 | an unknown id is a 404 and a row that cannot be loaded an unhandled error, both with the table unchanged; a known, loadable id removes exactly that row and leaves every other row as it was |
| Handlers.ReadAfterDelete | main.py:96-102 | after a loadable task is deleted it reads as 404, deleting it again is a 404, and the table is one row smaller |
| Routes.HandleAsWritten | main.py:48-49 | as declared, only reading a task is refused without a token: every other request, and a read with a token, gets the same answer as the corrected dispatch except for updates, and is never 401; a task route never touches users and an account route never touches tasks; a failed request changes nothing, except an update sending an empty state |
| Routes.TaskRoutesIgnoreAuthAsWritten | main.py:53-102 | as written, listing, creating, updating and deleting answer a request without a token exactly as one with a token |
| Routes.UnauthenticatedDeleteAsWritten | main.py:96-102 | the input showing it: with no token, deleting task 1 succeeds and empties the table |
| Routes.Dispatch | main.py:19-102 | the dispatch of the corrected application, with updates going through the corrected `Handlers.UpdateTask`: once a request is let through, a task route never touches users, an account route never touches tasks, a failure changes nothing, and a task route never answers 401 |
| Routes.Handle | main.py:48-49 | every task route without a valid token is a 401 that changes nothing; sign-up and login stay open; a request with a token, or an account request, gets exactly the answer of the handler behind its route, and never 401 |
| Routes.UnauthenticatedCannotChangeTasks | main.py:48-102 | with every task route gated, no request without a token can change the task table |
| Routes.HandleKeepsTasksWellFormed | main.py:48-102 | with the gate and the corrected update, every request keeps every stored row loadable |
| Routes.SignUpThenLogIn | main.py:19-45 | signing up with a free username and then logging in with the same credentials yields a token carrying them |

## Left out

- Token issuing and checking (`encode_user`, `get_current_user`) and the JWT settings: they
  are not part of this model. Whether a request carries a valid token is an input.
- 401 detail: every refused request answers with the missing-header message "Not
  authenticated". For an expired or invalid token the real detail comes from
  `get_current_user`, which is not part of this model.
- Password hashing: the code stores and compares plain text, so there is nothing to model.
- `UserValidator.validate_data`'s error branch (models/user.py:13-19): a `UserCreate` already
  has `User`'s field types, so the branch cannot be reached. The model goes straight from the
  parsed body to the handler.
- Response models: FastAPI projects the create and update responses onto `TaskCreate` /
  `TaskUpdate` fields. The model returns the whole row.
- Concurrency: requests are handled one at a time. The check-then-insert in `create_users`
  races in the real server, where the unique constraint would turn a lost race into a 500.
- Integer path parameters: the framework answers 422 before a handler runs when `page` or
  `id` is not an integer. `Utils.PageArg` still models the pager's own `isinstance` check.
- database.py (engine and session), apidocs/responses.py (example payloads),
  generate_tasks.py (random seeding) and the `lifespan` hook: plumbing with no decision
  logic.
- Integer width: ids, pages and offsets are unbounded integers in the model. SQLite binds
  integers as 64 bits, so an id of 2^63 or more, or a page whose offset reaches 2^63,
  makes the driver raise an overflow error (a 500), or the framework refuses it with a 422
  first. For such values the model answers 404 or an empty page instead.
- Keys.Ascending: row order without ORDER BY is up to the database. Ascending id order is an
  assumption of the model, not a promise of the code.
- Handlers.ApplyPatch: a null `titulo` or `estado` is taken to make the commit fail on the
  column's NOT NULL constraint and roll back, leaving the table unchanged. The database
  error itself is not modelled.
- Handlers.CreateTask: `data_criacao` and `data_atualizacao` come from two separate clock reads in the
  code. The model uses one instant for both.

## Findings

| source | as written | input that shows it | evidently intended | confidence | as-written member | corrected member |
|---|---|---|---|---|---|---|
| main.py:48-102 | only `read_tasks` depends on `get_current_user`; listing, create, update and delete have no authentication dependency | DELETE /api/tasks/1 with no Authorization header, on a table holding task 1: 200 `{"ok": true}` and the task is gone | every task route answers 401 without a valid token, as test_main.py:87-99 asserts for all five | high; not executed | Routes.UnauthenticatedDeleteAsWritten | Routes.Handle |
| main.py:67-79 | a successful update never touches `data_atualizacao`, which only has a creation-time default (models/task.py:53) | PATCH `{"titulo": "Titulo 2"}` at instant 5 on task 1 created at instant 0: `data_atualizacao` stays 0 | `data_atualizacao` is refreshed on every update, as the field list at models/task.py:15 says | medium; not executed | Handlers.UpdatedAtStaleAsWritten | Handlers.UpdateTask |
| main.py:67-79 | the state check runs only for a truthy `estado`, so an empty one skips it; `sqlmodel_update` assigns it and the enum column, which does not validate strings, commits it; reloading the row at main.py:78 then fails | PATCH `{"estado": ""}` on task 1: 500, yet task 1 now holds an empty `estado`, and every later read, update or delete of it, and every unfiltered page holding it, answers 500 | an empty `estado` is refused before anything is written, as `is_state_valid` refuses it (models/task.py:29-30), so every stored row stays loadable | medium; not executed | Handlers.EmptyStateCorruptsRowAsWritten | Handlers.UpdateTask |

=== FILE: handlers.dfy ===
/** The request handlers, each a pure operation on the table it touches. A handler that
    changes a table returns a `Reply` holding the table as it is after the request. A
    handler that fails hands the table back as it found it, since the failed request
    commits nothing; the one exception is the as-written update, which can commit a row
    and then fail to load it back. */
module Handlers {
  import opened Http
  import opened Settings
  import opened Keys
  import opened TaskModel
  import opened UserModel
  import opened Utils

  const InvalidCredentials: Error := HttpException(400, Message("Credentials invalidos."))
  const UserExists: Error := HttpException(400, Message("Usuário já existe."))
  const InvalidFilter: Error :=
    HttpException(400, Message("Possiveis filtros de estado: ('pendente', 'andamento', 'concluido')"))
  const InvalidTask: Error := HttpException(400, FieldMessages(ValidationErrorMessage))
  const NotAuthenticated: Error := HttpException(401, Message("Not authenticated"))

  // ---------------------------------------------------------------------------------
  // Users
  // ---------------------------------------------------------------------------------

  predicate Taken(users: UserTable, username: string) {
    exists id | id in users :: users[id].username == username
  }

  /** `login_user`: the first row matching both username and password, compared as plain
      text. Whatever is wrong, the client sees the same 400. */
  function LoginUser(users: UserTable, req: UserCreate): (r: Result<Credentials>)
    ensures r.Ok? <==> exists u :: u in users.Values && u.username == req.username && u.password == req.password
    ensures r.Ok? ==> r.value == Credentials(req.username, req.password)
    ensures r.Err? ==> r.error == InvalidCredentials
  {
    if exists id | id in users :: users[id].username == req.username && users[id].password == req.password
    then Ok(Credentials(req.username, req.password))
    else Err(InvalidCredentials)
  }

  /** A wrong password for an existing user and an unknown username are answered alike. */
  lemma LoginFailuresIndistinguishable(users: UserTable, wrongPassword: UserCreate, unknownUser: UserCreate)
    requires UsersWellFormed(users)
    requires Taken(users, wrongPassword.username)
    requires forall id :: id in users && users[id].username == wrongPassword.username ==>
      users[id].password != wrongPassword.password
    requires !Taken(users, unknownUser.username)
    ensures LoginUser(users, wrongPassword) == LoginUser(users, unknownUser) == Err(InvalidCredentials)
  {
  }

  /** `create_users`: 400 when the username is taken, otherwise one new row. */
  function CreateUser(users: UserTable, req: UserCreate): (r: Reply<UserTable, bool>)
    ensures r.body.Err? <==> Taken(users, req.username)
    ensures r.body.Err? ==> r.body.error == UserExists && r.state == users
    ensures r.body.Ok? ==>
      && r.body.value
      && |r.state| == |users| + 1
      && (forall id :: id in users ==> id in r.state && r.state[id] == users[id])
      && (exists id :: id !in users && r.state == users[id := User(id, req.username, req.password)])
    ensures UsersWellFormed(users) ==> UsersWellFormed(r.state)
  {
    if Taken(users, req.username) then Reply(users, Err(UserExists))
    else
      var id := NextKey(users.Keys);
      var after := users[id := User(id, req.username, req.password)];
      assert |after| == |users| + 1 by {
        assert after.Keys == users.Keys + {id};
      }
      InsertKeepsUsersWellFormed(users, id, req);
      Reply(after, Ok(true))
  }

  lemma InsertKeepsUsersWellFormed(users: UserTable, id: nat, req: UserCreate)
    requires id !in users && !Taken(users, req.username)
    ensures UsersWellFormed(users) ==> UsersWellFormed(users[id := User(id, req.username, req.password)])
  {
  }

  /** An account just created can log in. */
  lemma LoginAfterCreateUser(users: UserTable, req: UserCreate)
    requires !Taken(users, req.username)
    ensures LoginUser(CreateUser(users, req).state, req) == Ok(Credentials(req.username, req.password))
  {
    var id := NextKey(users.Keys);
    assert CreateUser(users, req).state[id] == User(id, req.username, req.password);
  }

  /** Creating the same username twice: the second call fails and the table keeps exactly
      one row with that username. */
  lemma {:induction false} CreateUserTwice(users: UserTable, req: UserCreate, again: UserCreate)
    requires UsersWellFormed(users)
    requires !Taken(users, req.username)
    requires again.username == req.username
    ensures var once := CreateUser(users, req).state;
      && CreateUser(once, again) == Reply(once, Err(UserExists))
      && |once| == |users| + 1
      && forall a, b ::
           (a in once && b in once && once[a].username == req.username && once[b].username == req.username)
           ==> a == b
  {
    var id := NextKey(users.Keys);
    var once := CreateUser(users, req).state;
    assert once[id].username == req.username;
    assert UsersWellFormed(once);
  }

  // ---------------------------------------------------------------------------------
  // Reading and listing tasks
  // ---------------------------------------------------------------------------------

  /** `read_tasks`: behind the authentication dependency, then a lookup. */
  function ReadTask(tasks: TaskTable, id: int, authenticated: bool): (r: Result<Task>)
    ensures !authenticated ==> r == Err(NotAuthenticated)
    ensures authenticated ==> (r.Ok? <==> id >= 0 && id in tasks && tasks[id].estado.Member?)
    ensures authenticated && r.Ok? ==> r.value == tasks[id]
    ensures authenticated && !(id >= 0 && id in tasks) ==> r == Err(NotFound)
    ensures authenticated && r.Err? ==> r.error.Status() != 401
  {
    if !authenticated then Err(NotAuthenticated) else GetTaskOr404(tasks, id)
  }

  predicate IdsIncreasing(rows: seq<Task>) {
    forall i, j :: 0 <= i < j < |rows| ==> rows[i].id < rows[j].id
  }

  /** Every row of the table, in ascending id order: the order an unordered SELECT over the
      table is taken to return. */
  function Rows(tasks: TaskTable): (r: seq<Task>)
    ensures |r| == |tasks|
    ensures forall t :: t in r <==> t in tasks.Values
    ensures TasksWellFormed(tasks) ==> IdsIncreasing(r)
  {
    var ids := Ascending(tasks.Keys);
    var r := RowsAt(tasks, ids);
    RowsAtHoldsEveryRow(tasks, ids, r);
    RowsAtIncreasing(tasks, ids, r);
    r
  }

  /** The rows stored under `ids`, in that order. */
  function RowsAt(tasks: TaskTable, ids: seq<nat>): (r: seq<Task>)
    requires forall x :: x in ids <==> x in tasks
    ensures |r| == |ids|
    ensures forall i :: 0 <= i < |r| ==> r[i] == tasks[ids[i]]
  {
    seq(|ids|, i requires 0 <= i < |ids| => assert ids[i] in ids; tasks[ids[i]])
  }

  lemma RowsAtHoldsEveryRow(tasks: TaskTable, ids: seq<nat>, r: seq<Task>)
    requires forall x :: x in ids <==> x in tasks
    requires |r| == |ids| && forall i :: 0 <= i < |r| ==> ids[i] in tasks && r[i] == tasks[ids[i]]
    ensures forall t :: t in r <==> t in tasks.Values
  {
    forall t | t in tasks.Values ensures t in r {
      var id :| id in tasks && tasks[id] == t;
      var i :| 0 <= i < |ids| && ids[i] == id;
      assert r[i] == t;
    }
  }

  lemma RowsAtIncreasing(tasks: TaskTable, ids: seq<nat>, r: seq<Task>)
    requires StrictlyIncreasing(ids)
    requires |r| == |ids| && forall i :: 0 <= i < |r| ==> ids[i] in tasks && r[i] == tasks[ids[i]]
    ensures TasksWellFormed(tasks) ==> IdsIncreasing(r)
  {
  }

  /** The rows whose stored state matches a filter key, in their original order. */
  function WithState(rows: seq<Task>, key: string): (r: seq<Task>)
    ensures |r| <= |rows|
    ensures forall t :: t in r <==> t in rows && t.estado.Text() == key
    ensures IdsIncreasing(rows) ==> IdsIncreasing(r)
  {
    if rows == [] then []
    else
      var rest := WithState(rows[1..], key);
      assert forall t :: t in rows <==> t == rows[0] || t in rows[1..];
      if rows[0].estado.Text() == key then
        IncreasingWithHead(rows, rest);
        [rows[0]] + rest
      else
        assert IdsIncreasing(rows) ==> IdsIncreasing(rows[1..]);
        rest
  }

  lemma IncreasingWithHead(rows: seq<Task>, rest: seq<Task>)
    requires rows != []
    requires forall t :: t in rest ==> t in rows[1..]
    requires IdsIncreasing(rows[1..]) ==> IdsIncreasing(rest)
    ensures IdsIncreasing(rows) ==> IdsIncreasing([rows[0]] + rest)
  {
    if IdsIncreasing(rows) {
      assert IdsIncreasing(rows[1..]);
      var r := [rows[0]] + rest;
      forall i, j | 0 <= i < j < |r|
        ensures r[i].id < r[j].id
      {
        if i == 0 {
          assert r[j] in rows[1..];
          var k :| 0 <= k < |rows[1..]| && rows[1..][k] == r[j];
          assert rows[k + 1] == r[j];
        } else {
          assert r[i] == rest[i - 1] && r[j] == rest[j - 1];
        }
      }
    }
  }

  /** A non-empty `estado` filters; an absent or empty one does not. */
  predicate Filters(estado: Option<string>) {
    estado.Some? && estado.value != ""
  }

  /** The rows the listing query selects, before paging. */
  function Selection(tasks: TaskTable, estado: Option<string>): (r: seq<Task>)
    ensures forall t :: t in r ==> t in tasks.Values
    ensures Filters(estado) ==> forall t :: t in r <==> t in tasks.Values && t.estado.Text() == estado.value
    ensures !Filters(estado) ==> forall t :: t in r <==> t in tasks.Values
    ensures TasksWellFormed(tasks) ==> IdsIncreasing(r)
  {
    if Filters(estado) then WithState(Rows(tasks), estado.value) else Rows(tasks)
  }

  /** In a well-formed table every stored row can be loaded. */
  lemma StoredRowsLoad(tasks: TaskTable)
    ensures TasksWellFormed(tasks) ==> forall t :: t in tasks.Values ==> t.estado.Member?
  {
  }

  /** `list_tasks`: refuse a filter outside the whitelist, otherwise serve one page of the
      selected rows. Loading a page that holds a row whose `estado` names no enum member
      fails inside the ORM. */
  function ListTasks(tasks: TaskTable, page: int, estado: Option<string>): (r: Result<seq<Task>>)
    ensures r == Err(InvalidFilter) <==> Filters(estado) && estado.value !in AllowedStateFilter
    ensures r.Err? && r.error != InvalidFilter ==>
      r.error == Unhandled(UnloadableState) && exists t :: t in tasks.Values && t.estado.Unmatched?
    ensures TasksWellFormed(tasks) ==> (r.Err? <==> Filters(estado) && estado.value !in AllowedStateFilter)
    ensures !(Filters(estado) && estado.value !in AllowedStateFilter) ==>
      r == LoadRows(Paginate(Selection(tasks, estado), IntArg(page)))
    ensures r.Ok? ==> |r.value| <= PaginationPerPage
    ensures r.Ok? ==> forall t :: t in r.value ==> t in tasks.Values && t.estado.Member?
    ensures r.Ok? && Filters(estado) ==> forall t :: t in r.value ==> t.estado.Text() == estado.value
    ensures r.Ok? && TasksWellFormed(tasks) ==> IdsIncreasing(r.value)
  {
    if Filters(estado) && estado.value !in AllowedStateFilter then Err(InvalidFilter)
    else
      var served := Paginate(Selection(tasks, estado), IntArg(page));
      PageOfSelection(tasks, estado, page);
      LoadRows(served)
  }

  /** One page of the selection holds at most a page size of stored rows, all matching the
      filter, and in a well-formed table they load and come in ascending id order. */
  lemma PageOfSelection(tasks: TaskTable, estado: Option<string>, page: int)
    ensures var served := Paginate(Selection(tasks, estado), IntArg(page));
      && |served| <= PaginationPerPage
      && (forall t :: t in served ==> t in tasks.Values)
      && (Filters(estado) ==> forall t :: t in served ==> t.estado.Text() == estado.value)
      && (TasksWellFormed(tasks) ==> IdsIncreasing(served) && forall t :: t in served ==> t.estado.Member?)
  {
    var rows := Selection(tasks, estado);
    var served := Paginate(rows, IntArg(page));
    assert forall t :: t in served ==> t in rows;
    StoredRowsLoad(tasks);
  }

  /** Loading selected rows into tasks: it fails as soon as one of them holds an `estado`
      that names no enum member. */
  function LoadRows(rows: seq<Task>): (r: Result<seq<Task>>)
    ensures r.Ok? <==> forall t :: t in rows ==> t.estado.Member?
    ensures r.Ok? ==> r.value == rows
    ensures r.Err? ==> r.error == Unhandled(UnloadableState) && exists t :: t in rows && t.estado.Unmatched?
  {
    if forall t | t in rows :: t.estado.Member? then Ok(rows) else Err(Unhandled(UnloadableState))
  }

  /** An accepted filter key names exactly one state, and the listing keeps exactly the rows
      in that state. */
  lemma FilterSelectsOneState(tasks: TaskTable, key: string)
    requires TasksWellFormed(tasks)
    requires key in AllowedStateFilter
    ensures exists st: State :: (st.Name() == key
      && forall t :: t in Selection(tasks, Some(key)) <==> t in tasks.Values && t.estado == Member(st))
  {
    FilterKeysAreEnumNames();
    var st: State :| st.Name() == key;
    assert forall other: State :: other.Name() == key ==> other == st;
    StoredRowsLoad(tasks);
  }

  /** Pages 1 to `k` of the listing, one after the other. */
  function ListedUpTo(tasks: TaskTable, estado: Option<string>, k: nat): seq<Task>
    requires TasksWellFormed(tasks)
    requires !Filters(estado) || estado.value in AllowedStateFilter
  {
    if k == 0 then [] else ListedUpTo(tasks, estado, k - 1) + ListTasks(tasks, k, estado).value
  }

  /** Pages 1 to `k` of the listing serve exactly the first `k` page sizes of the selected
      rows: nothing twice and nothing skipped. */
  lemma {:induction false} ListedPagesCoverSelection(tasks: TaskTable, estado: Option<string>, k: nat)
    requires TasksWellFormed(tasks)
    requires !Filters(estado) || estado.value in AllowedStateFilter
    ensures var rows := Selection(tasks, estado);
      ListedUpTo(tasks, estado, k) == rows[..Min(k * PaginationPerPage, |rows|)]
  {
    ListedUpToIsPagesUpTo(tasks, estado, k);
    PagesCoverPrefix(Selection(tasks, estado), k);
  }

  lemma {:induction false} ListedUpToIsPagesUpTo(tasks: TaskTable, estado: Option<string>, k: nat)
    requires TasksWellFormed(tasks)
    requires !Filters(estado) || estado.value in AllowedStateFilter
    ensures ListedUpTo(tasks, estado, k) == PagesUpTo(Selection(tasks, estado), k)
  {
    if k > 0 {
      ListedUpToIsPagesUpTo(tasks, estado, k - 1);
    }
  }

  /** A page that starts at or past the end of the selection is empty. */
  lemma ListPastEndIsEmpty(tasks: TaskTable, page: int, estado: Option<string>)
    requires !Filters(estado) || estado.value in AllowedStateFilter
    requires page >= 1 && Offset(page) >= |Selection(tasks, estado)|
    ensures ListTasks(tasks, page, estado) == Ok([])
  {
  }

  /** Every stored task the filter admits is served by some page. */
  lemma ListingIsComplete(tasks: TaskTable, estado: Option<string>, t: Task)
    requires TasksWellFormed(tasks)
    requires !Filters(estado) || estado.value in AllowedStateFilter
    requires t in tasks.Values
    requires Filters(estado) ==> t.estado.Text() == estado.value
    ensures exists page: int :: page >= 1 && t in ListTasks(tasks, page, estado).value
  {
    var rows := Selection(tasks, estado);
    assert t in rows;
    var i :| 0 <= i < |rows| && rows[i] == t;
    ItemOnItsPage(rows, i);
    var page := i / PaginationPerPage + 1;
    var served := Paginate(rows, IntArg(page));
    assert served[i % PaginationPerPage] == t;
    assert t in served;
    ListedPage(tasks, estado, page);
  }

  /** In a well-formed table an accepted filter always lists the page of its selection. */
  lemma ListedPage(tasks: TaskTable, estado: Option<string>, page: int)
    requires TasksWellFormed(tasks)
    requires !Filters(estado) || estado.value in AllowedStateFilter
    ensures ListTasks(tasks, page, estado) == Ok(Paginate(Selection(tasks, estado), IntArg(page)))
  {
    PageOfSelection(tasks, estado, page);
  }

  // ---------------------------------------------------------------------------------
  // Creating, updating and deleting tasks
  // ---------------------------------------------------------------------------------

  /** `create_tasks`: the body is validated against the `Task` model, whose `estado` is the
      enum; a failure is a 400 carrying the whole validation message. On success the row is
      stored under a fresh id, both timestamps set to `now`. */
  function CreateTask(tasks: TaskTable, req: TaskCreate, now: int): (r: Reply<TaskTable, Task>)
    ensures r.body.Err? <==> req.estado !in AllowedStates
    ensures r.body.Err? ==> r.body.error == InvalidTask && r.state == tasks
    ensures r.body.Ok? ==>
      var t := r.body.value;
      && t.id !in tasks
      && (forall id :: id in tasks ==> id < t.id)
      && r.state == tasks[t.id := t]
      && t.titulo == req.titulo && t.descricao == req.descricao
      && t.estado.Member? && t.estado.state.Value() == req.estado
      && t.dataCriacao == now && t.dataAtualizacao == now
    ensures TasksWellFormed(tasks) ==> TasksWellFormed(r.state)
  {
    match ParseState(req.estado)
    case None => Reply(tasks, Err(InvalidTask))
    case Some(st) =>
      var id := NextKey(tasks.Keys);
      var t := Task(id, req.titulo, req.descricao, Member(st), now, now);
      Reply(tasks[id := t], Ok(t))
  }

  /** A created task reads back as it was returned. */
  lemma ReadAfterCreate(tasks: TaskTable, req: TaskCreate, now: int)
    requires req.estado in AllowedStates
    ensures var r := CreateTask(tasks, req, now);
      r.body.Ok? && ReadTask(r.state, r.body.value.id, true) == Ok(r.body.value)
  {
  }

  /** The state check `update_tasks` runs first: only a non-empty `estado` is validated, and
      a disallowed one raises the validator's 400. */
  function CheckPatchState(patch: TaskUpdate): (r: Result<bool>)
    ensures r.Err? <==> patch.estado.SetTo? && patch.estado.value != "" && patch.estado.value !in AllowedStates
    ensures r.Err? ==> r.error == InvalidState
  {
    if patch.estado.SetTo? && patch.estado.value != "" then IsStateValid(Some(patch.estado.value), true)
    else Ok(true)
  }

  /** The state check run on every `estado` the patch sends, the empty one included, so
      that an empty `estado` reaches the validator, which refuses it. */
  function CheckSentState(patch: TaskUpdate): (r: Result<bool>)
    ensures r.Err? <==> patch.estado.SetTo? && patch.estado.value !in AllowedStates
    ensures r.Err? && patch.estado.value == "" ==> r.error == Unhandled(StateNotImplemented)
    ensures r.Err? && patch.estado.value != "" ==> r.error == InvalidState
  {
    if patch.estado.SetTo? then IsStateValid(Some(patch.estado.value), true) else Ok(true)
  }

  /** The row after `sqlmodel_update` copies the fields the patch sets and the commit writes
      it. A null `titulo` or `estado` breaks its column's NOT NULL constraint, so the commit
      fails; a string `estado` is bound by the enum column, which keeps a string it cannot
      match as it is. `data_atualizacao` is not a patch field. */
  function ApplyPatch(row: Task, patch: TaskUpdate): (r: Result<Task>)
    ensures r.Err? <==> patch.titulo.SetNull? || patch.estado.SetNull?
    ensures r.Err? ==> r.error == Unhandled(StorageRejected)
    ensures r.Ok? ==> Merged(row, patch, r.value) && r.value.dataAtualizacao == row.dataAtualizacao
  {
    var titulo :-
      match patch.titulo
      case Unset => Ok(row.titulo)
      case SetNull => Err(Unhandled(StorageRejected))
      case SetTo(s) => Ok(s);
    var estado :-
      match patch.estado
      case Unset => Ok(row.estado)
      case SetNull => Err(Unhandled(StorageRejected))
      case SetTo(s) => Ok(BindState(s));
    var descricao :=
      match patch.descricao
      case Unset => row.descricao
      case SetNull => None
      case SetTo(s) => Some(s);
    Ok(row.(titulo := titulo, descricao := descricao, estado := estado))
  }

  /** What a field becomes: its old value when the patch leaves it out, the patch's value
      otherwise. */
  predicate Merged(before: Task, patch: TaskUpdate, after: Task) {
    && after.id == before.id
    && after.dataCriacao == before.dataCriacao
    && (patch.titulo.Unset? ==> after.titulo == before.titulo)
    && (patch.titulo.SetTo? ==> after.titulo == patch.titulo.value)
    && (patch.descricao.Unset? ==> after.descricao == before.descricao)
    && (patch.descricao.SetNull? ==> after.descricao.None?)
    && (patch.descricao.SetTo? ==> after.descricao == Some(patch.descricao.value))
    && (patch.estado.Unset? ==> after.estado == before.estado)
    && (patch.estado.SetTo? ==> after.estado == BindState(patch.estado.value))
  }

  /** `update_tasks` as the code runs it: the state check, which skips an empty `estado`,
      then the lookup, the merge and the commit. An empty `estado` is committed to the column
      as it is, and reloading the row afterwards fails: the client gets a 500 while the row
      stays written. `data_atualizacao` is left as it was. */
  function UpdateTaskAsWritten(tasks: TaskTable, id: int, patch: TaskUpdate): (r: Reply<TaskTable, Task>)
    ensures CheckPatchState(patch).Err? ==> r == Reply(tasks, Err(InvalidState))
    ensures CheckPatchState(patch).Ok? && !(id >= 0 && id in tasks) ==> r == Reply(tasks, Err(NotFound))
    ensures (CheckPatchState(patch).Ok? && id >= 0 && id in tasks && tasks[id].estado.Member?
      && (patch.titulo.SetNull? || patch.estado.SetNull?)) ==> r == Reply(tasks, Err(Unhandled(StorageRejected)))
    ensures (CheckPatchState(patch).Ok? && id >= 0 && id in tasks && tasks[id].estado.Unmatched?)
      ==> r == Reply(tasks, Err(Unhandled(UnloadableState)))
    ensures r.body.Ok? <==>
      && CheckPatchState(patch).Ok? && id >= 0 && id in tasks && tasks[id].estado.Member?
      && !patch.titulo.SetNull? && !patch.estado.SetNull? && patch.estado != SetTo("")
    ensures r.body.Err? ==>
      r.body.error in {InvalidState, NotFound, Unhandled(StorageRejected), Unhandled(UnloadableState)}
    ensures (r.body.Err? && !(patch.estado == SetTo("") && !patch.titulo.SetNull? && id >= 0 && id in tasks
      && tasks[id].estado.Member?)) ==> r.state == tasks
    ensures r.state == tasks || (
      && id >= 0 && id in tasks && id in r.state
      && r.state == tasks[id := r.state[id]]
      && Merged(tasks[id], patch, r.state[id])
      && r.state[id].dataAtualizacao == tasks[id].dataAtualizacao)
    ensures r.body.Ok? ==> id >= 0 && r.state == tasks[id := r.body.value]
    ensures r.body.Ok? ==> (
      && id in tasks
      && Merged(tasks[id], patch, r.body.value)
      && r.body.value.dataAtualizacao == tasks[id].dataAtualizacao)
    ensures (patch.estado == SetTo("") && !patch.titulo.SetNull? && id >= 0 && id in tasks
      && tasks[id].estado.Member?) ==>
      && r.body == Err(Unhandled(UnloadableState))
      && id in r.state && r.state[id].estado == Unmatched("")
  {
    var merged :=
      var _ :- CheckPatchState(patch);
      var row :- GetTaskOr404(tasks, id);
      ApplyPatch(row, patch);
    if merged.Err? then Reply(tasks, merged)
    else
      var after := tasks[id := merged.value];
      if merged.value.estado.Member? then Reply(after, merged)
      else Reply(after, Err(Unhandled(UnloadableState)))
  }

  /** `update_tasks` with two corrections: every `estado` the patch sends is checked, so an
      empty one is refused before anything is written, and `data_atualizacao` is refreshed
      to `now` on every successful update, as the task model's field list says it should
      be. */
  function UpdateTask(tasks: TaskTable, id: int, patch: TaskUpdate, now: int): (r: Reply<TaskTable, Task>)
    ensures CheckSentState(patch).Err? ==> r == Reply(tasks, Err(CheckSentState(patch).error))
    ensures CheckSentState(patch).Ok? && !(id >= 0 && id in tasks) ==> r == Reply(tasks, Err(NotFound))
    ensures (CheckSentState(patch).Ok? && id >= 0 && id in tasks && tasks[id].estado.Member?
      && (patch.titulo.SetNull? || patch.estado.SetNull?)) ==> r == Reply(tasks, Err(Unhandled(StorageRejected)))
    ensures (CheckSentState(patch).Ok? && id >= 0 && id in tasks && tasks[id].estado.Unmatched?)
      ==> r == Reply(tasks, Err(Unhandled(UnloadableState)))
    ensures r.body.Ok? <==>
      && CheckSentState(patch).Ok? && id >= 0 && id in tasks && tasks[id].estado.Member?
      && !patch.titulo.SetNull? && !patch.estado.SetNull?
    ensures r.body.Err? ==> r.body.error in {
      InvalidState, Unhandled(StateNotImplemented), NotFound, Unhandled(StorageRejected), Unhandled(UnloadableState)}
    ensures r.body.Err? ==> r.state == tasks
    ensures r.body.Ok? ==> id >= 0 && id in tasks && r.state == tasks[id := r.body.value]
    ensures r.body.Ok? ==>
      && Merged(tasks[id], patch, r.body.value)
      && r.body.value.estado.Member?
      && r.body.value.dataAtualizacao == now
    ensures TasksWellFormed(tasks) ==> TasksWellFormed(r.state)
  {
    var updated :=
      var _ :- CheckSentState(patch);
      var row :- GetTaskOr404(tasks, id);
      var merged :- ApplyPatch(row, patch);
      Ok(merged.(dataAtualizacao := now));
    if updated.Ok? then Reply(tasks[id := updated.value], updated) else Reply(tasks, updated)
  }

  /** The input that shows an empty `estado` corrupting a row as written: the update answers
      500, yet the row now holds an `estado` that names no enum member, and from then on
      reading or deleting it, or listing the page it is on, answers 500 too. */
  lemma EmptyStateCorruptsRowAsWritten()
    ensures var row := Task(1, "Titulo 1", None, Member(Pendente), 0, 0);
      var r := UpdateTaskAsWritten(map[1 := row], 1, TaskUpdate(Unset, Unset, SetTo("")));
      && r.body == Err(Unhandled(UnloadableState))
      && r.state == map[1 := row.(estado := Unmatched(""))]
      && ReadTask(r.state, 1, true) == Err(Unhandled(UnloadableState))
      && DeleteTask(r.state, 1) == Reply(r.state, Err(Unhandled(UnloadableState)))
      && ListTasks(r.state, 1, None) == Err(Unhandled(UnloadableState))
  {
    var row := Task(1, "Titulo 1", None, Member(Pendente), 0, 0);
    var corrupt := row.(estado := Unmatched(""));
    var after := map[1 := corrupt];
    assert UpdateTaskAsWritten(map[1 := row], 1, TaskUpdate(Unset, Unset, SetTo(""))).state == after;
    var rows := Selection(after, None);
    assert |rows| == 1 && rows[0] in after.Values;
    assert rows[0] == corrupt;
    assert Paginate(rows, IntArg(1))[0] == corrupt;
  }

  /** With every sent state checked, an empty `estado` is refused and nothing is written,
      whatever the table and the id. */
  lemma UpdateRefusesEmptyState(tasks: TaskTable, id: int, titulo: Patch<string>, descricao: Patch<string>, now: int)
    ensures UpdateTask(tasks, id, TaskUpdate(titulo, descricao, SetTo("")), now)
      == Reply(tasks, Err(Unhandled(StateNotImplemented)))
  {
  }

  /** The input that shows `data_atualizacao` going stale: a title changed at any later
      instant still reports its creation instant as the last update. */
  lemma UpdatedAtStaleAsWritten()
    ensures var row := Task(1, "Titulo 1", None, Member(Pendente), 0, 0);
      UpdateTaskAsWritten(map[1 := row], 1, TaskUpdate(SetTo("Titulo 2"), Unset, Unset)).body
        == Ok(row.(titulo := "Titulo 2"))
  {
  }

  /** Updating at instant `now` records `now`, whatever the patch. */
  lemma UpdateRecordsInstant(tasks: TaskTable, id: int, patch: TaskUpdate, now: int)
    requires UpdateTask(tasks, id, patch, now).body.Ok?
    ensures UpdateTask(tasks, id, patch, now).body.value.dataAtualizacao == now
    ensures ReadTask(UpdateTask(tasks, id, patch, now).state, id, true) == UpdateTask(tasks, id, patch, now).body
  {
  }

  /** A disallowed state is reported even for an id that does not exist: the state check
      comes before the lookup. */
  lemma UpdateChecksStateBeforeId(tasks: TaskTable, id: int, patch: TaskUpdate, now: int)
    requires !(id >= 0 && id in tasks)
    requires patch.estado.SetTo? && patch.estado.value != "" && patch.estado.value !in AllowedStates
    ensures UpdateTask(tasks, id, patch, now) == Reply(tasks, Err(InvalidState))
    ensures UpdateTask(tasks, id, patch, now).body.error.Status() == 400
  {
  }

  /** Only the timestamp moves when the patch sets nothing. */
  lemma EmptyPatchKeepsRow(tasks: TaskTable, id: int, now: int)
    requires id >= 0 && id in tasks && tasks[id].estado.Member?
    ensures UpdateTask(tasks, id, TaskUpdate(Unset, Unset, Unset), now).body
      == Ok(tasks[id].(dataAtualizacao := now))
  {
  }

  /** Applying the same patch twice leaves the row as applying it once did. */
  lemma UpdateIdempotent(tasks: TaskTable, id: int, patch: TaskUpdate, now: int)
    requires UpdateTask(tasks, id, patch, now).body.Ok?
    ensures var once := UpdateTask(tasks, id, patch, now);
      UpdateTask(once.state, id, patch, now) == once
  {
    var once := UpdateTask(tasks, id, patch, now);
    var row := once.body.value;
    assert ApplyPatch(row, patch) == Ok(row);
    assert once.state[id := row] == once.state;
  }

  /** `delete_tasks`: 404 for an unknown id, otherwise the row is removed. */
  function DeleteTask(tasks: TaskTable, id: int): (r: Reply<TaskTable, bool>)
    ensures r.body.Err? <==> !(id >= 0 && id in tasks && tasks[id].estado.Member?)
    ensures r.body.Err? ==> r.state == tasks
    ensures r.body.Err? && !(id >= 0 && id in tasks) ==> r.body.error == NotFound
    ensures r.body.Err? && id >= 0 && id in tasks ==> r.body.error == Unhandled(UnloadableState)
    ensures r.body.Ok? ==> r.body.value && r.state.Keys == tasks.Keys - {id}
    ensures forall k :: k in r.state ==> k in tasks && r.state[k] == tasks[k]
    ensures TasksWellFormed(tasks) ==> TasksWellFormed(r.state)
  {
    var found := GetTaskOr404(tasks, id);
    if found.Err? then Reply(tasks, Err(found.error))
    else Reply(map k | k in tasks && k != id :: tasks[k], Ok(true))
  }

  /** A deleted task reads as not found, and deleting it again fails the same way. */
  lemma ReadAfterDelete(tasks: TaskTable, id: int)
    requires id >= 0 && id in tasks && tasks[id].estado.Member?
    ensures var after := DeleteTask(tasks, id).state;
      && ReadTask(after, id, true) == Err(NotFound)
      && DeleteTask(after, id) == Reply(after, Err(NotFound))
      && |after| == |tasks| - 1
  {
    var after := DeleteTask(tasks, id).state;
    assert tasks.Keys == after.Keys + {id};
  }
}

=== FILE: http.dfy ===
/** Results, errors and request bodies shared by every handler of the task-list service.
    An error is either an HTTPException the handlers raise on purpose, a 422 produced by the
    request-schema layer before a handler runs, or an exception nobody catches (the server
    answers 500). */
module Http {

  datatype Option<+T> = None | Some(value: T)

  /** The `detail` of an HTTPException: a plain message or a map from field name to message. */
  datatype Detail = Message(text: string) | FieldMessages(fields: map<string, string>)

  /** Why an exception escaped the handlers. */
  datatype Cause =
    | StateNotImplemented   // is_state_valid called without an `estado`
    | StorageRejected       // the commit refused a value its column cannot hold
    | UnloadableState       // a stored `estado` names no enum member, so the row cannot be loaded

  datatype Error =
    | HttpException(status: nat, detail: Detail)
    | RequestInvalid
    | Unhandled(cause: Cause)
  {
    /** The HTTP status the client sees. */
    function Status(): nat {
      match this
      case HttpException(s, _) => s
      case RequestInvalid => 422
      case Unhandled(_) => 500
    }
  }

  datatype Result<+T> = Ok(value: T) | Err(error: Error) {
    predicate IsFailure() {
      Err?
    }

    function PropagateFailure<U>(): Result<U>
      requires Err?
    {
      Err(error)
    }

    function Extract(): T
      requires Ok?
    {
      value
    }
  }

  /** What a handler leaves behind: the store after the request and the response body. */
  datatype Reply<S, T> = Reply(state: S, body: Result<T>)

  /** A JSON value as far as the request schemas care: a string, an explicit null, or
      anything else (a number, a list, an object). */
  datatype Json = JString(text: string) | JNull | JOther

  /** A JSON object sent as a request body. */
  type Body = map<string, Json>

  /** A required string field. */
  function RequiredString(body: Body, field: string): (r: Result<string>)
    ensures r.Ok? <==> field in body && body[field].JString?
    ensures r.Ok? ==> r.value == body[field].text
    ensures r.Err? ==> r.error == RequestInvalid
  {
    if field in body && body[field].JString? then Ok(body[field].text) else Err(RequestInvalid)
  }

  /** An optional string field that defaults to None. */
  function OptionalString(body: Body, field: string): (r: Result<Option<string>>)
    ensures r.Err? <==> field in body && body[field].JOther?
    ensures r == Ok(None) <==> field !in body || body[field].JNull?
    ensures r.Ok? && r.value.Some? ==> field in body && body[field] == JString(r.value.value)
    ensures r.Err? ==> r.error == RequestInvalid
  {
    if field !in body then Ok(None)
    else match body[field]
      case JString(s) => Ok(Some(s))
      case JNull => Ok(None)
      case JOther => Err(RequestInvalid)
  }
}

=== FILE: keys.dfy ===
/** The two things the database does with integer primary keys that the handlers rely on:
    the order in which an unordered SELECT returns rows, taken here to be ascending key
    order, and the key a new row receives, which for an INTEGER PRIMARY KEY column is one
    more than the largest key present, or 1 in an empty table. */
module Keys {

  /** `x` is the smallest element of `s`. */
  predicate IsLeast(x: nat, s: set<nat>) {
    x in s && forall y :: y in s ==> x <= y
  }

  lemma {:induction false} LeastExists(s: set<nat>)
    requires s != {}
    ensures exists x :: IsLeast(x, s)
  {
    var y :| y in s;
    if s != {y} {
      LeastExists(s - {y});
      var x :| IsLeast(x, s - {y});
      var m := if y < x then y else x;
      forall z | z in s
        ensures m <= z
      {
        if z != y {
          assert z in s - {y};
        }
      }
      assert IsLeast(m, s);
    } else {
      assert IsLeast(y, s);
    }
  }

  function Least(s: set<nat>): (x: nat)
    requires s != {}
    ensures x in s
    ensures forall y :: y in s ==> x <= y
  {
    LeastExists(s);
    var x :| IsLeast(x, s);
    x
  }

  predicate StrictlyIncreasing(r: seq<nat>) {
    forall i, j :: 0 <= i < j < |r| ==> r[i] < r[j]
  }

  /** The keys of `s`, smallest first. */
  function Ascending(s: set<nat>): (r: seq<nat>)
    ensures |r| == |s|
    ensures forall x :: x in r <==> x in s
    ensures StrictlyIncreasing(r)
    decreases s
  {
    if s == {} then []
    else
      var x := Least(s);
      var rest := Ascending(s - {x});
      assert forall i :: 0 <= i < |rest| ==> x < rest[i] by {
        forall i | 0 <= i < |rest|
          ensures x < rest[i]
        {
          assert rest[i] in s - {x};
        }
      }
      [x] + rest
  }

  /** The key the database gives the next row inserted into a table whose keys are `s`. */
  function NextKey(s: set<nat>): (k: nat)
    ensures k >= 1 && k !in s
    ensures forall y :: y in s ==> y < k
    ensures s == {} ==> k == 1
    ensures s != {} ==> k - 1 in s
  {
    var r := Ascending(s);
    if |r| == 0 then 1
    else
      var top := r[|r| - 1];
      assert forall y :: y in s ==> y <= top by {
        forall y | y in s
          ensures y <= top
        {
          var i :| 0 <= i < |r| && r[i] == y;
          assert i == |r| - 1 || r[i] < r[|r| - 1];
        }
      }
      top + 1
  }
}

=== FILE: routes.dfy ===
/** The application as a whole: both tables, the requests its routes accept, and which of
    them sit behind the authentication dependency. Whether a request carries a valid bearer
    token is an input here; issuing and checking tokens is not part of this model. */
module Routes {
  import opened Http
  import opened TaskModel
  import opened UserModel
  import opened Handlers

  datatype Server = Server(users: UserTable, tasks: TaskTable)

  datatype Request =
    | LoginReq(credentials: UserCreate)
    | CreateUserReq(account: UserCreate)
    | ReadTaskReq(id: int)
    | ListTasksReq(page: int, estado: Option<string>)
    | CreateTaskReq(create: TaskCreate)
    | UpdateTaskReq(id: int, patch: TaskUpdate)
    | DeleteTaskReq(id: int)
  {
    /** The five routes under /api/tasks. */
    predicate OnTasks() {
      !LoginReq? && !CreateUserReq?
    }
  }

  /** A response body: `{"ok": true}`, a token's claims, one task, or a page of tasks. */
  datatype Response = Ack | Token(claims: Credentials) | OneTask(task: Task) | TaskList(tasks: seq<Task>)

  function AckOf(r: Result<bool>): Result<Response> {
    match r
    case Ok(_) => Ok(Ack)
    case Err(e) => Err(e)
  }

  function TaskOf(r: Result<Task>): Result<Response> {
    match r
    case Ok(t) => Ok(OneTask(t))
    case Err(e) => Err(e)
  }

  function ListOf(r: Result<seq<Task>>): Result<Response> {
    match r
    case Ok(ts) => Ok(TaskList(ts))
    case Err(e) => Err(e)
  }

  function TokenOf(r: Result<Credentials>): Result<Response> {
    match r
    case Ok(c) => Ok(Token(c))
    case Err(e) => Err(e)
  }

  /** Routing as the application declares it: `read_tasks` is the only handler that depends
      on the current user, so every other task route runs for anyone. The one failed request
      that still writes is an update sending an empty `estado`. */
  function HandleAsWritten(s: Server, req: Request, authenticated: bool, now: int): (r: Reply<Server, Response>)
    ensures req.ReadTaskReq? && !authenticated ==> r == Reply(s, Err(NotAuthenticated))
    ensures req.OnTasks() ==> r.state.users == s.users
    ensures !req.OnTasks() ==> r.state.tasks == s.tasks
    ensures r.body.Err? && !(req.UpdateTaskReq? && req.patch.estado == SetTo("")) ==> r.state == s
    ensures !(req.ReadTaskReq? && !authenticated) ==> r.body != Err(NotAuthenticated)
    ensures !req.UpdateTaskReq? && (authenticated || !req.ReadTaskReq?) ==> r == Dispatch(s, req, now)
  {
    match req
    case LoginReq(c) => Reply(s, TokenOf(LoginUser(s.users, c)))
    case CreateUserReq(a) =>
      var rep := CreateUser(s.users, a);
      Reply(s.(users := rep.state), AckOf(rep.body))
    case ReadTaskReq(id) => Reply(s, TaskOf(ReadTask(s.tasks, id, authenticated)))
    case ListTasksReq(page, estado) => Reply(s, ListOf(ListTasks(s.tasks, page, estado)))
    case CreateTaskReq(c) =>
      var rep := CreateTask(s.tasks, c, now);
      Reply(s.(tasks := rep.state), TaskOf(rep.body))
    case UpdateTaskReq(id, patch) =>
      var rep := UpdateTaskAsWritten(s.tasks, id, patch);
      Reply(s.(tasks := rep.state), TaskOf(rep.body))
    case DeleteTaskReq(id) =>
      var rep := DeleteTask(s.tasks, id);
      Reply(s.(tasks := rep.state), AckOf(rep.body))
  }

  /** As written, listing, creating, updating and deleting tasks answer a request without a
      token exactly as one with a token. */
  lemma TaskRoutesIgnoreAuthAsWritten(s: Server, req: Request, now: int)
    requires req.OnTasks() && !req.ReadTaskReq?
    ensures HandleAsWritten(s, req, false, now) == HandleAsWritten(s, req, true, now)
  {
  }

  /** The input that shows it: with no token at all, DELETE /api/tasks/1 removes task 1. */
  lemma UnauthenticatedDeleteAsWritten()
    ensures var t := Task(1, "Titulo 1", None, Member(Pendente), 0, 0);
      var s := Server(map[], map[1 := t]);
      HandleAsWritten(s, DeleteTaskReq(1), false, 0) == Reply(Server(map[], map[]), Ok(Ack))
  {
    var t := Task(1, "Titulo 1", None, Member(Pendente), 0, 0);
    var after := DeleteTask(map[1 := t], 1).state;
    assert after.Keys == {};
    assert after == map[];
  }

  /** The handlers behind the routes in the corrected application, once a request has been
      let through: updates go through the corrected `UpdateTask`, which refuses an empty
      `estado` and stamps `now`. */
  function Dispatch(s: Server, req: Request, now: int): (r: Reply<Server, Response>)
    ensures req.OnTasks() ==> r.state.users == s.users
    ensures !req.OnTasks() ==> r.state.tasks == s.tasks
    ensures r.body.Err? ==> r.state == s
    ensures r.body.Err? && req.OnTasks() ==> r.body.error.Status() != 401
  {
    match req
    case LoginReq(c) => Reply(s, TokenOf(LoginUser(s.users, c)))
    case CreateUserReq(a) =>
      var rep := CreateUser(s.users, a);
      Reply(s.(users := rep.state), AckOf(rep.body))
    case ReadTaskReq(id) => Reply(s, TaskOf(ReadTask(s.tasks, id, true)))
    case ListTasksReq(page, estado) => Reply(s, ListOf(ListTasks(s.tasks, page, estado)))
    case CreateTaskReq(c) =>
      var rep := CreateTask(s.tasks, c, now);
      Reply(s.(tasks := rep.state), TaskOf(rep.body))
    case UpdateTaskReq(id, patch) =>
      var rep := UpdateTask(s.tasks, id, patch, now);
      Reply(s.(tasks := rep.state), TaskOf(rep.body))
    case DeleteTaskReq(id) =>
      var rep := DeleteTask(s.tasks, id);
      Reply(s.(tasks := rep.state), AckOf(rep.body))
  }

  /** Routing with every task route behind the authentication dependency: a task request
      without a valid token is refused with 401 and changes nothing; the account routes stay
      open. */
  function Handle(s: Server, req: Request, authenticated: bool, now: int): (r: Reply<Server, Response>)
    ensures req.OnTasks() && !authenticated ==> r == Reply(s, Err(NotAuthenticated))
    ensures authenticated || !req.OnTasks() ==> r.body != Err(NotAuthenticated)
    ensures authenticated || !req.OnTasks() ==> r == Dispatch(s, req, now)
    ensures r.body.Err? ==> r.state == s
  {
    if req.OnTasks() && !authenticated then Reply(s, Err(NotAuthenticated))
    else Dispatch(s, req, now)
  }

  /** With the gate on every task route, a request without a token can change no task. */
  lemma UnauthenticatedCannotChangeTasks(s: Server, req: Request, now: int)
    ensures Handle(s, req, false, now).state.tasks == s.tasks
  {
  }

  /** With the gate and the corrected update, no request leaves a task row that cannot be
      loaded, so every read and every page keeps working. */
  lemma HandleKeepsTasksWellFormed(s: Server, req: Request, authenticated: bool, now: int)
    requires TasksWellFormed(s.tasks)
    ensures TasksWellFormed(Handle(s, req, authenticated, now).state.tasks)
  {
  }

  /** A user who creates an account and logs in gets a token carrying their credentials. */
  lemma SignUpThenLogIn(s: Server, account: UserCreate, now: int)
    requires !Taken(s.users, account.username)
    ensures var after := Handle(s, CreateUserReq(account), false, now);
      && after.body == Ok(Ack)
      && Handle(after.state, LoginReq(account), false, now).body
         == Ok(Token(Credentials(account.username, account.password)))
  {
    LoginAfterCreateUser(s.users, account);
  }
}

=== FILE: settings.dfy ===
module Settings {
  /** Page size of the task listing. */
  const PaginationPerPage: nat := 10
}

=== FILE: task_model.dfy ===
/** The task entity: its three states, the two whitelists built from them, the state
    validator shared by the create and update schemas, and the request schemas themselves. */
module TaskModel {
  import opened Http

  /** The `PossiveisEstados` enum. */
  datatype State = Pendente | Concluido | Andamento {
    /** The enum value: the string a client sends and receives. */
    function Value(): string {
      match this
      case Pendente => "Pendente"
      case Concluido => "Concluído"
      case Andamento => "Em andamento"
    }

    /** The enum member's name. An enum column stores this name, so it is the string a
        stored state is compared with when the listing filters on `estado`. */
    function Name(): string {
      match this
      case Pendente => "pendente"
      case Concluido => "concluido"
      case Andamento => "andamento"
    }
  }

  const AllowedStates: seq<string> := ["Pendente", "Concluído", "Em andamento"]
  const AllowedStateFilter: seq<string> := ["pendente", "andamento", "concluido"]

  /** The message attached to a rejected `estado`, with the tuple rendered as Python does. */
  const StateMessage: string := "Somente 3 valores: ('Pendente', 'Concluído', 'Em andamento')"

  /** `TaskStateValidation.validation_error_message`. */
  const ValidationErrorMessage: map<string, string> :=
    map["titulo" := "Campo obrigatório", "descricao" := "Campo opcional", "estado" := StateMessage]

  const InvalidState: Error := HttpException(400, FieldMessages(map["estado" := StateMessage]))

  /** The whitelist and the enum carry the same three strings, so every state the
      validator accepts is one a stored task can hold, and vice versa. */
  lemma AllowedStatesAreEnumValues()
    ensures |AllowedStates| == 3
    ensures forall i, j :: 0 <= i < j < |AllowedStates| ==> AllowedStates[i] != AllowedStates[j]
    ensures forall s :: s in AllowedStates <==> exists st: State :: st.Value() == s
  {
    forall s | s in AllowedStates
      ensures exists st: State :: st.Value() == s
    {
      if s == "Pendente" {
        assert Pendente.Value() == s;
      } else if s == "Concluído" {
        assert Concluido.Value() == s;
      } else {
        assert Andamento.Value() == s;
      }
    }
  }

  /** The filter keys are three distinct strings, exactly the enum's member names, and none
      of them is a state string a client sends. */
  lemma FilterKeysAreEnumNames()
    ensures |AllowedStateFilter| == 3
    ensures forall i, j :: 0 <= i < j < |AllowedStateFilter| ==> AllowedStateFilter[i] != AllowedStateFilter[j]
    ensures forall k :: k in AllowedStateFilter <==> exists st: State :: st.Name() == k
    ensures forall k :: k in AllowedStateFilter ==> k !in AllowedStates
  {
    forall k | k in AllowedStateFilter
      ensures exists st: State :: st.Name() == k
    {
      if k == "pendente" {
        assert Pendente.Name() == k;
      } else if k == "andamento" {
        assert Andamento.Name() == k;
      } else {
        assert Concluido.Name() == k;
      }
    }
  }

  /** Coercion of a string into the enum, by value, as the `Task` model does when it is
      validated. */
  function ParseState(s: string): (r: Option<State>)
    ensures r.Some? <==> s in AllowedStates
    ensures r.Some? ==> r.value.Value() == s
  {
    if s == "Pendente" then Some(Pendente)
    else if s == "Concluído" then Some(Concluido)
    else if s == "Em andamento" then Some(Andamento)
    else None
  }

  lemma ParseStateRoundTrip(st: State)
    ensures ParseState(st.Value()) == Some(st)
  {
  }

  /** `TaskStateValidation.is_state_valid`. A missing or empty `estado` raises; a present
      one is checked against the whitelist and, when `raiseError` is set, a miss raises a
      400 instead of answering false. */
  function IsStateValid(estado: Option<string>, raiseError: bool): (r: Result<bool>)
    ensures (estado.None? || estado.value == "") <==> r == Err(Unhandled(StateNotImplemented))
    ensures r == Ok(true) <==> exists st: State :: estado == Some(st.Value())
    ensures r == Ok(false) ==> !raiseError
    ensures r.Err? && r.error != Unhandled(StateNotImplemented) ==> raiseError && r.error == InvalidState
    ensures !raiseError && estado.Some? && estado.value != "" ==> r.Ok?
  {
    if estado.None? || estado.value == "" then
      Err(Unhandled(StateNotImplemented))
    else
      AllowedStatesAreEnumValues();
      var isValid := estado.value in AllowedStates;
      if raiseError && !isValid then Err(InvalidState)
      else Ok(isValid)
  }

  /** What the `estado` column of a row holds. The enum column stores a member's name; a
      string it cannot match to a member is stored unchanged, because the column does not
      validate strings, and a row holding one cannot be loaded back. */
  datatype Column = Member(state: State) | Unmatched(text: string) {
    /** The column's text, which the listing filter is compared with. */
    function Text(): string {
      match this
      case Member(st) => st.Name()
      case Unmatched(s) => s
    }
  }

  /** How the enum column binds a string assigned to it: an enum value, or a member's name,
      becomes that member; any other string is kept as it is. */
  function BindState(s: string): (c: Column)
    ensures c.Member? <==> s in AllowedStates || s in AllowedStateFilter
    ensures c.Member? && s in AllowedStates ==> c.state.Value() == s
    ensures c.Member? && s in AllowedStateFilter ==> c.state.Name() == s
    ensures c.Unmatched? ==> c.text == s
  {
    match ParseState(s)
    case Some(st) => Member(st)
    case None =>
      if s == "pendente" then Member(Pendente)
      else if s == "concluido" then Member(Concluido)
      else if s == "andamento" then Member(Andamento)
      else Unmatched(s)
  }

  /** A stored task. Timestamps are opaque instants supplied by the caller. */
  datatype Task = Task(
    id: nat,
    titulo: string,
    descricao: Option<string>,
    estado: Column,
    dataCriacao: int,
    dataAtualizacao: int)

  /** The task table, by primary key. */
  type TaskTable = map<nat, Task>

  /** Every row is stored under its own id and every stored state names an enum member, so
      every row can be loaded. */
  ghost predicate TasksWellFormed(t: TaskTable) {
    forall id :: id in t ==> t[id].id == id && t[id].estado.Member?
  }

  /** The body of a create request: `titulo` and `estado` are required, `descricao` is not. */
  datatype TaskCreate = TaskCreate(titulo: string, descricao: Option<string>, estado: string)

  /** One field of a partial update: left out of the body, sent as null, or sent with a value. */
  datatype Patch<+T> = Unset | SetNull | SetTo(value: T)

  /** The body of an update request: every field is optional. */
  datatype TaskUpdate = TaskUpdate(titulo: Patch<string>, descricao: Patch<string>, estado: Patch<string>)

  /** A field of a partial update; a field left out stays distinguishable from an explicit null. */
  function PatchField(body: Body, field: string): (r: Result<Patch<string>>)
    ensures r.Err? <==> field in body && body[field].JOther?
    ensures r == Ok(Unset) <==> field !in body
    ensures r == Ok(SetNull) <==> field in body && body[field].JNull?
    ensures r.Ok? && r.value.SetTo? ==> field in body && body[field] == JString(r.value.value)
    ensures r.Err? ==> r.error == RequestInvalid
  {
    if field !in body then Ok(Unset)
    else match body[field]
      case JString(s) => Ok(SetTo(s))
      case JNull => Ok(SetNull)
      case JOther => Err(RequestInvalid)
  }

  /** The `TaskCreate` schema applied to a body: 422 unless `titulo` and `estado` are strings
      and `descricao` is absent, null or a string; other keys are ignored. */
  function ParseTaskCreate(body: Body): (r: Result<TaskCreate>)
    ensures r.Ok? <==>
      && "titulo" in body && body["titulo"].JString?
      && "estado" in body && body["estado"].JString?
      && ("descricao" in body ==> !body["descricao"].JOther?)
    ensures r.Ok? ==>
      && r.value.titulo == body["titulo"].text
      && r.value.estado == body["estado"].text
      && (r.value.descricao.None? <==> "descricao" !in body || body["descricao"].JNull?)
      && (r.value.descricao.Some? ==> body["descricao"] == JString(r.value.descricao.value))
    ensures r.Err? ==> r.error == RequestInvalid
  {
    var titulo :- RequiredString(body, "titulo");
    var descricao :- OptionalString(body, "descricao");
    var estado :- RequiredString(body, "estado");
    Ok(TaskCreate(titulo, descricao, estado))
  }

  /** The `TaskUpdate` schema applied to a body: every field may be left out or sent as
      null; only a value that is not a string is refused. */
  function ParseTaskUpdate(body: Body): (r: Result<TaskUpdate>)
    ensures r.Ok? <==> forall f :: f in body && f in {"titulo", "descricao", "estado"} ==> !body[f].JOther?
    ensures r.Err? ==> r.error == RequestInvalid
    ensures r.Ok? ==>
      && ("titulo" !in body <==> r.value.titulo.Unset?)
      && ("titulo" in body && body["titulo"].JNull? <==> r.value.titulo.SetNull?)
      && (r.value.titulo.SetTo? ==> body["titulo"] == JString(r.value.titulo.value))
      && ("descricao" !in body <==> r.value.descricao.Unset?)
      && ("descricao" in body && body["descricao"].JNull? <==> r.value.descricao.SetNull?)
      && (r.value.descricao.SetTo? ==> body["descricao"] == JString(r.value.descricao.value))
      && ("estado" !in body <==> r.value.estado.Unset?)
      && ("estado" in body && body["estado"].JNull? <==> r.value.estado.SetNull?)
      && (r.value.estado.SetTo? ==> body["estado"] == JString(r.value.estado.value))
    ensures body == map[] ==> r == Ok(TaskUpdate(Unset, Unset, Unset))
  {
    var titulo :- PatchField(body, "titulo");
    var descricao :- PatchField(body, "descricao");
    var estado :- PatchField(body, "estado");
    Ok(TaskUpdate(titulo, descricao, estado))
  }

  /** The body a client sends for a create request. */
  function CreateBody(c: TaskCreate): Body {
    map["titulo" := JString(c.titulo), "estado" := JString(c.estado)]
    + (if c.descricao.Some? then map["descricao" := JString(c.descricao.value)] else map[])
  }

  function PatchBody(field: string, p: Patch<string>): Body {
    match p
    case Unset => map[]
    case SetNull => map[field := JNull]
    case SetTo(s) => map[field := JString(s)]
  }

  /** The body a client sends for an update request: only the fields it sets. */
  function UpdateBody(u: TaskUpdate): Body {
    PatchBody("titulo", u.titulo) + PatchBody("descricao", u.descricao) + PatchBody("estado", u.estado)
  }

  /** Every create request survives the schema unchanged. */
  lemma ParseTaskCreateRoundTrip(c: TaskCreate)
    ensures ParseTaskCreate(CreateBody(c)) == Ok(c)
  {
  }

  /** Every update request survives the schema unchanged, in particular an explicit null
      stays distinct from a field left out. */
  lemma ParseTaskUpdateRoundTrip(u: TaskUpdate)
    ensures ParseTaskUpdate(UpdateBody(u)) == Ok(u)
  {
    var body := UpdateBody(u);
    assert PatchField(body, "titulo") == Ok(u.titulo);
    assert PatchField(body, "descricao") == Ok(u.descricao);
    assert PatchField(body, "estado") == Ok(u.estado);
  }
}

=== FILE: user_model.dfy ===
/** The user entity and the body of the account-creation and login requests. Passwords are
    stored and compared as sent: nothing hashes them. */
module UserModel {
  import opened Http

  datatype User = User(id: nat, username: string, password: string)

  /** The user table, by primary key. */
  type UserTable = map<nat, User>

  /** Every row is stored under its own id and no two rows share a username, the column's
      unique constraint. */
  ghost predicate UsersWellFormed(t: UserTable) {
    && (forall id :: id in t ==> t[id].id == id)
    && (forall a, b :: a in t && b in t && t[a].username == t[b].username ==> a == b)
  }

  /** The body of an account-creation or login request. */
  datatype UserCreate = UserCreate(username: string, password: string)

  /** What a successful login hands to the token encoder: the request's own fields. */
  datatype Credentials = Credentials(username: string, password: string)

  /** The `UserCreate` schema applied to a body: both fields are required strings (a number
      is refused, not converted); other keys are ignored. */
  function ParseUserCreate(body: Body): (r: Result<UserCreate>)
    ensures r.Ok? <==>
      && "username" in body && body["username"].JString?
      && "password" in body && body["password"].JString?
    ensures r.Ok? ==> r.value == UserCreate(body["username"].text, body["password"].text)
    ensures r.Err? ==> r.error == RequestInvalid
  {
    var username :- RequiredString(body, "username");
    var password :- RequiredString(body, "password");
    Ok(UserCreate(username, password))
  }

  function UserBody(u: UserCreate): Body {
    map["username" := JString(u.username), "password" := JString(u.password)]
  }

  lemma ParseUserCreateRoundTrip(u: UserCreate)
    ensures ParseUserCreate(UserBody(u)) == Ok(u)
  {
  }
}

=== FILE: utils.dfy ===
/** Pagination of the task listing and the lookup-or-404 every single-task handler uses. */
module Utils {
  import opened Http
  import opened Settings
  import opened TaskModel

  /** The page argument as the pager receives it: an integer, or some other value. */
  datatype PageArg = IntArg(n: int) | NonIntArg

  /** The page actually served: anything that is not an integer of at least 1 becomes page 1. */
  function EffectivePage(p: PageArg): (page: int)
    ensures page >= 1
    ensures p.IntArg? && p.n >= 1 ==> page == p.n
  {
    if p.NonIntArg? || p.n < 1 then 1 else p.n
  }

  /** Index of the first item of a page, written as the pager computes it. */
  function Offset(page: int): int {
    page * PaginationPerPage - PaginationPerPage
  }

  function Min(a: int, b: int): int {
    if a <= b then a else b
  }

  /** One page of `items`: the query's OFFSET and LIMIT applied to the rows it selects. */
  function Paginate<T>(items: seq<T>, p: PageArg): (r: seq<T>)
    ensures |r| <= PaginationPerPage
    ensures Offset(EffectivePage(p)) >= 0
    ensures Offset(EffectivePage(p)) >= |items| ==> r == []
    ensures Offset(EffectivePage(p)) < |items| ==>
      |r| == Min(PaginationPerPage, |items| - Offset(EffectivePage(p)))
    ensures forall i :: 0 <= i < |r| ==>
      Offset(EffectivePage(p)) + i < |items| && r[i] == items[Offset(EffectivePage(p)) + i]
  {
    var initial := Offset(EffectivePage(p));
    if initial >= |items| then []
    else items[initial..Min(initial + PaginationPerPage, |items|)]
  }

  /** A page below 1, or a page that is not an integer, serves what page 1 serves. */
  lemma OutOfRangePageIsFirst<T>(items: seq<T>, p: PageArg)
    requires p.NonIntArg? || p.n < 1
    ensures Paginate(items, p) == Paginate(items, IntArg(1))
  {
  }

  /** Consecutive pages start exactly one page size apart, page 1 at the first item. */
  lemma OffsetsAdjacent(page: int)
    requires page >= 1
    ensures Offset(1) == 0
    ensures Offset(page + 1) == Offset(page) + PaginationPerPage
    ensures Offset(page) == (page - 1) * PaginationPerPage
  {
  }

  /** Pages 1 to `k`, one after the other. */
  function PagesUpTo<T>(items: seq<T>, k: nat): seq<T> {
    if k == 0 then [] else PagesUpTo(items, k - 1) + Paginate(items, IntArg(k))
  }

  /** Pages 1 to `k` together are exactly the first `k` page sizes of items, so pages
      neither overlap nor skip anything. */
  lemma {:induction false} PagesCoverPrefix<T>(items: seq<T>, k: nat)
    ensures PagesUpTo(items, k) == items[..Min(k * PaginationPerPage, |items|)]
  {
    if k > 0 {
      PagesCoverPrefix(items, k - 1);
      OffsetsAdjacent(k);
      var lo := Min((k - 1) * PaginationPerPage, |items|);
      var hi := Min(k * PaginationPerPage, |items|);
      assert Paginate(items, IntArg(k)) == items[lo..hi];
      assert items[..lo] + items[lo..hi] == items[..hi];
    }
  }

  /** Every item is served by exactly one page: the one its index falls into. */
  lemma ItemOnItsPage<T>(items: seq<T>, i: nat)
    requires i < |items|
    ensures var page := Paginate(items, IntArg(i / PaginationPerPage + 1));
      i % PaginationPerPage < |page| && page[i % PaginationPerPage] == items[i]
    ensures forall q: int :: q >= 1 && q != i / PaginationPerPage + 1 ==>
      !(Offset(q) <= i < Offset(q) + PaginationPerPage)
  {
    var q0 := i / PaginationPerPage + 1;
    assert Offset(q0) + i % PaginationPerPage == i;
    forall q: int | q >= 1 && q != q0
      ensures !(Offset(q) <= i < Offset(q) + PaginationPerPage)
    {
      if q < q0 {
        assert Offset(q) + PaginationPerPage <= Offset(q0);
      } else {
        assert Offset(q0) + PaginationPerPage <= Offset(q);
      }
    }
  }

  const NotFound: Error := HttpException(404, Message("Tarefa não encontrada."))

  /** `get_task_or_404`: the stored row, or 404. Loading a row whose `estado` names no enum
      member fails inside the ORM, an error nobody catches. It reads the table and returns
      no table, so it cannot change it. */
  function GetTaskOr404(table: TaskTable, id: int): (r: Result<Task>)
    ensures r.Ok? <==> id >= 0 && id in table && table[id].estado.Member?
    ensures r.Ok? ==> r.value == table[id]
    ensures r.Err? && !(id >= 0 && id in table) ==> r.error == NotFound
    ensures r.Err? && id >= 0 && id in table ==> r.error == Unhandled(UnloadableState)
  {
    if !(id >= 0 && id in table) then Err(NotFound)
    else if table[id].estado.Unmatched? then Err(Unhandled(UnloadableState))
    else Ok(table[id])
  }
}
